=== FILE: README.md ===
# JDWSDevUtils script commands in Dafny

JDWSDevUtils is a Visual Studio add-in. This project models the three parts
of it that are plain sequential logic, once the IDE, Roslyn and the file
system have been replaced by inputs:

- **Convert `var` to explicit type** (`JDWConvertVarCommand.ExecuteAsync`). The
  command first runs a chain of pre-flight checks on the IDE and the active
  document. It then collects the `var` type slots of the document. It maps
  each acceptable slot to its fully-qualified type, which keeps the slot's
  trivia and carries the simplifier annotation. Finally it either reports
  that there is nothing to replace, or rewrites the file and reports the
  number of replacements.
- **Copy folder scripts to clipboard** (`JDWCopyScriptsToClipboardCommand.Execute`).
  Every `.cs` file of the selected folder is written out as a Start/End-marked
  block, or as one error line when it cannot be read. The clipboard is set
  when at least one file was read.
- **Copy selected scripts to clipboard** (`JDWCopyScriptCommand.Execute`). The
  same serialiser works on the Solution Explorer selection, with three
  differences:
  - an eligibility filter on the selected items;
  - a blank line only between successful blocks;
  - no extra line after each block.

Files:

- `wrappers.dfy`: `Option` and `Result`.
- `paths.dfy`: `Path.GetFileName`, `Path.GetExtension`, `ToLowerInvariant` and
  ordinal case-insensitive comparison, with case folding on ASCII letters.
- `syntax.dfy`: the abstract syntax tree, the scan for `var` declarations,
  and `ReplaceNodes`.
- `convert_var.dfy`: the pre-flight checks, the replacement plan, and the
  run's effects and closing message.
- `script_text.dfy`: the marker lines both clipboard commands write.
- `folder_copy.dfy` and `selection_copy.dfy`: the two clipboard commands.

Each clipboard command is modelled twice:

- as a reference definition, a recursive function over the input sequence;
- as a method whose loop mirrors the source's `foreach` and `StringBuilder`
  appends.

The method is proved to compute the reference. Further lemmas state how the
reference behaves on sub-sequences. Host answers are inputs:

- whether the DTE service answers;
- the active document and its project;
- the set of existing paths;
- the semantic model's converted type for each slot, and whether its
  fully-qualified spelling parses;
- the simplifier as a function;
- per-file read results;
- clipboard and write failures.

`Environment.NewLine` is the parameter `nl`.

## Model

| member | source | states |
|---|---|---|
| Paths.FileName | JDWSDevUtils/Commands/Scripts/JDWCopyScriptCommand.cs:107 | `Path.GetFileName`: the file name is a suffix of the path, never longer than it |
| Paths.Extension | JDWSDevUtils/Commands/Scripts/JDWCopyScriptCommand.cs:100 | `Path.GetExtension`: the extension is a suffix of the path and, when not empty, starts with '.' |
| Paths.FileNameHasNoSeparator | JDWSDevUtils/Commands/Scripts/JDWCopyScriptCommand.cs:107 | the file name, a suffix of the path, contains none of the directory, alternative or volume separators |
| Paths.FileNameFollowsSeparator | JDWSDevUtils/Commands/Scripts/JDWCopyScriptCommand.cs:107 | when the file name is not the whole path, the character just before it is a separator, so it is the longest separator-free suffix |
| Paths.ExtensionSpec | JDWSDevUtils/Commands/InScripts/JDWConvertVarCommand.cs:101 | the extension is empty exactly when the file name has no '.' or the path ends in '.'; otherwise it lies in the file name, starts at its last '.', and has at least one character after it |
| Paths.ToLowerAscii | JDWSDevUtils/Commands/InScripts/JDWConvertVarCommand.cs:101 | `ToLowerInvariant` on ASCII letters: the result holds no upper-case letter and equals the input up to case, with the same length |
| Paths.EqualsIgnoreCase | JDWSDevUtils/Commands/Scripts/JDWCopyScriptCommand.cs:100 | ordinal case-insensitive `Equals` on ASCII letters: same length, and each pair of characters equal after folding |
| Paths.HasCSharpExtension | JDWSDevUtils/Commands/Scripts/JDWCopyScriptCommand.cs:100 | the extension test of both script commands: the path's extension equals ".cs" ignoring case; `Paths.CSharpExtensionIffNameEndsInCs` characterises it |
| Paths.LowerThenCompareIsIgnoreCase | JDWSDevUtils/Commands/InScripts/JDWConvertVarCommand.cs:101 | lower-casing a string and comparing it with a lower-case literal accepts exactly the strings that an ordinal case-insensitive comparison with that literal accepts |
| Paths.CSharpExtensionLowersToCs | JDWSDevUtils/Commands/Scripts/JDWCopyScriptCommand.cs:100 | the selection command's extension test (`Equals(".cs", OrdinalIgnoreCase)`) and the conversion command's (`ToLowerInvariant() == ".cs"`) accept the same paths |
| Paths.CSharpExtensionIffNameEndsInCs | JDWSDevUtils/Commands/Scripts/JDWCopyScriptCommand.cs:98-100 | a path passes the `.cs` extension test exactly when its file name ends in ".cs" in any letter case |
| Syntax.Declarations | JDWSDevUtils/Commands/InScripts/JDWConvertVarCommand.cs:160 | the variable declarations among the root's descendant nodes, in pre-order |
| Syntax.Candidates | JDWSDevUtils/Commands/InScripts/JDWConvertVarCommand.cs:160 | the scan's result: the `var` filter applied to the declarations; `Syntax.VarOnly` states its contents and `Syntax.VarOnlyAppend` its order |
| Syntax.VarOnly | JDWSDevUtils/Commands/InScripts/JDWConvertVarCommand.cs:160 | a declaration is a candidate exactly when it is in the tree and its type slot is `var`; there are never more candidates than declarations |
| Syntax.VarOnlyAppend | JDWSDevUtils/Commands/InScripts/JDWConvertVarCommand.cs:160-162 | the `var` filter distributes over concatenation, so candidates keep the tree order of their declarations |
| Syntax.Rewrite | JDWSDevUtils/Commands/InScripts/JDWConvertVarCommand.cs:189 | `ReplaceNodes` as one structural pass over the tree that swaps each planned type slot for its replacement; its effect on the declarations is stated by `Syntax.RewriteDeclarations` |
| Syntax.RewriteDeclarations | JDWSDevUtils/Commands/InScripts/JDWConvertVarCommand.cs:189 | one `ReplaceNodes` pass keeps every declaration in place and in order, and swaps a type slot exactly when the plan has an entry for that node |
| ConvertVar.Validate | JDWSDevUtils/Commands/InScripts/JDWConvertVarCommand.cs:87-129 | the checks run in a fixed order: DTE, active document, C# file, self-file guard, containing project, project file; the run is rejected by the first check that fails and by no earlier one; it passes exactly when no check fails, and then yields the document and project paths |
| ConvertVar.IsCSharpDocument | JDWSDevUtils/Commands/InScripts/JDWConvertVarCommand.cs:101 | the C#-file check: a non-empty path that exists and whose extension lower-cases to ".cs" |
| ConvertVar.OwnSourceRefused | JDWSDevUtils/Commands/InScripts/JDWConvertVarCommand.cs:101-114 | an existing document named `JDWConvertVarCommand.cs`, in any directory and letter case, passes the extension check and is refused by the self-file guard |
| ConvertVar.Accepts | JDWSDevUtils/Commands/InScripts/JDWConvertVarCommand.cs:168-171 | a candidate passes the exclusion test exactly when its converted type exists, is not an error type, is not anonymous, and does not display as `var` |
| ConvertVar.ReplacementFor | JDWSDevUtils/Commands/InScripts/JDWConvertVarCommand.cs:177-180 | the parsed explicit type takes over the slot's trivia and the slot's `id`, which marks the position it fills, spells the fully-qualified type, and carries the simplifier annotation |
| ConvertVar.AddCandidate | JDWSDevUtils/Commands/InScripts/JDWConvertVarCommand.cs:164-182 | one loop pass never changes an entry already made; the candidate's node is a key afterwards exactly when it was before or the candidate passes the test and its spelling parses; a new entry carries that spelling, the slot's trivia and the annotation |
| ConvertVar.Plan | JDWSDevUtils/Commands/InScripts/JDWConvertVarCommand.cs:158-183 | the replacement map never has more entries than there are `var` candidates |
| ConvertVar.PlanSound | JDWSDevUtils/Commands/InScripts/JDWConvertVarCommand.cs:162-182 | every key of the map is the type node of an accepted candidate whose spelling parsed; its value spells that type and carries the node's own trivia and the simplifier annotation |
| ConvertVar.PlanComplete | JDWSDevUtils/Commands/InScripts/JDWConvertVarCommand.cs:162-182 | every accepted candidate whose spelling parsed has an entry in the map |
| ConvertVar.PlanSizeIsConvertibleCount | JDWSDevUtils/Commands/InScripts/JDWConvertVarCommand.cs:162-183 | with distinct nodes, the map size, which is the reported count, equals the number of convertible candidates |
| ConvertVar.VarOnlyDistinct | JDWSDevUtils/Commands/InScripts/JDWConvertVarCommand.cs:160 | the `var` filter keeps pairwise distinct type nodes distinct |
| ConvertVar.CandidatesDistinct | JDWSDevUtils/Commands/InScripts/JDWConvertVarCommand.cs:160 | in one syntax tree, where every node is distinct, the scanned candidates have pairwise distinct type nodes |
| ConvertVar.ReplacedCountIsConvertibleCount | JDWSDevUtils/Commands/InScripts/JDWConvertVarCommand.cs:160-205 | in one syntax tree, the count in the success message is the number of `var` declarations whose type is accepted and whose fully-qualified spelling parses |
| ConvertVar.UnconvertibleCandidateSkipped | JDWSDevUtils/Commands/InScripts/JDWConvertVarCommand.cs:165-182 | a rejected candidate, or one whose spelling fails, wherever it stands, leaves the map exactly as if it were absent, so every later candidate is still handled |
| ConvertVar.NoConvertibleNoPlan | JDWSDevUtils/Commands/InScripts/JDWConvertVarCommand.cs:165-183 | when no candidate is convertible, the map is empty |
| ConvertVar.RewriteReplacesExactlyConvertible | JDWSDevUtils/Commands/InScripts/JDWConvertVarCommand.cs:177-189 | after the rewrite, each convertible `var` slot holds its fully-qualified type with the original trivia and the annotation; every other declaration, anonymous and error-typed ones included, is unchanged; trivia is always preserved |
| ConvertVar.SecondRunPlansNothing | JDWSDevUtils/Commands/InScripts/JDWConvertVarCommand.cs:160-189 | planning again on the rewritten tree finds nothing to replace |
| ConvertVar.Convert | JDWSDevUtils/Commands/InScripts/JDWConvertVarCommand.cs:186-212 | the result is "nothing to replace" exactly when the map is empty, and then nothing is written; the file is written, to the document's own path, exactly when the map is non-empty and the rewrite and simplification succeed, and otherwise the project load is the only effect; a failed simplification writes nothing and reports its error; success is reported exactly when the write went through, with the map size as count; a failed write reports its own exception and no count, as the single outer `catch` does |
| ConvertVar.Run | JDWSDevUtils/Commands/InScripts/JDWConvertVarCommand.cs:132-220 | a rejected run has no effect at all; otherwise the project is opened first; a load that throws reports its exception; a missing document id, document, or semantic model and root each ends with its own message; none of these writes anything |
| ScriptText.Line | JDWSDevUtils/Commands/Scripts/JDWCopyScriptCommand.cs:112-116 | `AppendLine`: the line followed by the line terminator |
| ScriptText.StartMarker | JDWSDevUtils/Commands/Scripts/JDWCopyScriptCommand.cs:114 | the start marker line naming the file |
| ScriptText.EndMarker | JDWSDevUtils/Commands/Scripts/JDWCopyScriptCommand.cs:116 | the end marker line naming the file |
| ScriptText.ErrorMarker | JDWSDevUtils/Commands/Scripts/JDWCopyScriptCommand.cs:121-129 | the error line naming the file and the exception message, "Error reading" for an `IOException` and "Error processing" for any other exception |
| ScriptText.SuccessBlockLayout | JDWSDevUtils/Commands/Scripts/JDWCopyScriptCommand.cs:114-116 | the block is exactly the start marker line, then the content line, then the end marker line, in that order |
| ScriptText.Utf16Length | JDWSDevUtils/Commands/Scripts/JDWCopyScriptCommand.cs:119 | `String.Length` counts UTF-16 code units: between one and two per character, and exactly one per character exactly when no character lies beyond the Basic Multilingual Plane |
| FolderCopy.AppendFile | JDWSDevUtils/Commands/JDWFoderSciptCopyScriptsToClipboardCommand.cs:151-174 | one loop pass appends exactly the file's block: three marked lines and an extra line on success, one error line and an extra line on failure; it counts a success and its length in UTF-16 code units |
| FolderCopy.Concatenate | JDWSDevUtils/Commands/JDWFoderSciptCopyScriptsToClipboardCommand.cs:145-175 | the loop returns the blocks of all files in listing order, the number of successful reads and the sum of their lengths in UTF-16 code units |
| FolderCopy.FolderTextAppend | JDWSDevUtils/Commands/JDWFoderSciptCopyScriptsToClipboardCommand.cs:149-175 | the text of a listing is the text of its first part followed by that of the rest, so blocks appear in listing order |
| FolderCopy.CountsAppend | JDWSDevUtils/Commands/JDWFoderSciptCopyScriptsToClipboardCommand.cs:161-162 | the number of successful reads and their total length add up over the parts of a listing |
| FolderCopy.FailedReadAddsOnlyItsLine | JDWSDevUtils/Commands/JDWFoderSciptCopyScriptsToClipboardCommand.cs:164-174 | a failed read leaves both counters unchanged and adds only its own error line, naming the file, at its place |
| FolderCopy.FolderTextNonEmpty | JDWSDevUtils/Commands/JDWFoderSciptCopyScriptsToClipboardCommand.cs:178-201 | a non-empty listing never gives an empty text, so the branch that ends without a message cannot be reached |
| FolderCopy.CopyFolder | JDWSDevUtils/Commands/JDWFoderSciptCopyScriptsToClipboardCommand.cs:136-201 | "no files" exactly for an empty listing; the clipboard receives the whole text exactly when a file was read and the clipboard accepts it, reporting count and size; "could not read" exactly when files exist but none was read; "copy complete" exactly when the clipboard was set; a clipboard failure, denied access and any other listing failure each report their own exception and copy nothing; the branch without a message is unreachable |
| SelectionCopy.Eligible | JDWSDevUtils/Commands/Scripts/JDWCopyScriptCommand.cs:83-100 | the filter in front of the read: a physical-file project item whose full path is available, non-empty, exists and has a `.cs` extension in any letter case |
| SelectionCopy.AppendItem | JDWSDevUtils/Commands/Scripts/JDWCopyScriptCommand.cs:83-101 | one loop pass appends nothing and counts nothing for an item that is not a physical-file project item with an available, non-empty, existing `.cs` path; for any other item it appends and counts what reading its file yields |
| SelectionCopy.AppendRead | JDWSDevUtils/Commands/Scripts/JDWCopyScriptCommand.cs:103-130 | reading one eligible file appends a blank line only if a file was already copied, then the start marker, the content and the end marker, and counts the file and its length in UTF-16 code units; a failed read appends only its "Error reading" or "Error processing" line and leaves both counters unchanged |
| SelectionCopy.Concatenate | JDWSDevUtils/Commands/Scripts/JDWCopyScriptCommand.cs:75-133 | the loop returns the text of the selection in selection order, the number of files read and the sum of their lengths in UTF-16 code units |
| SelectionCopy.SelectionAppend | JDWSDevUtils/Commands/Scripts/JDWCopyScriptCommand.cs:81-133 | the text of a selection is the text of its first part followed by that of the rest; the rest starts knowing whether the first part copied a file |
| SelectionCopy.CountsAppend | JDWSDevUtils/Commands/Scripts/JDWCopyScriptCommand.cs:118-119 | the number of files read and their total length add up over the parts of a selection |
| SelectionCopy.IneligibleItemSkipped | JDWSDevUtils/Commands/Scripts/JDWCopyScriptCommand.cs:83-100 | an item that fails the filter leaves the text and both counters exactly as if it were not selected. The filter requires a physical-file project item with a non-empty, existing full path and a `.cs` extension in any case |
| SelectionCopy.FailedItemAddsOnlyItsLine | JDWSDevUtils/Commands/Scripts/JDWCopyScriptCommand.cs:121-130 | a failed read leaves both counters unchanged and inserts only its own error line; the items after it are written as if it were absent |
| SelectionCopy.BlankLinesOnlyBetweenBlocks | JDWSDevUtils/Commands/Scripts/JDWCopyScriptCommand.cs:110-116 | when no read fails, the text is the blocks of the files read, in selection order, joined by single blank lines, with none before the first and none after the last |
| SelectionCopy.CopySelection | JDWSDevUtils/Commands/Scripts/JDWCopyScriptCommand.cs:68-155 | an empty selection gives no text and no message; the clipboard receives the whole text exactly when a file was read and the clipboard accepts it, reporting count and size; "no valid C# script" exactly when the selection is not empty but no file was read; the silent return happens exactly for an empty selection; "copy complete" exactly when the clipboard was set, and a clipboard failure reports its exception |

## Left out

- DTE service lookup, command registration, `BeforeQueryStatus` and the message boxes: messages are the outcome datatypes, without their texts, titles, icons and number formatting.
- Acquiring the folder path in the folder command (the selection, item kind, `FullPath` and `Directory.Exists` checks before the listing): the model starts at the listing.
- The file system and the clipboard:
  - `Directory.GetFiles` is the `Listing` input, and its `*.cs` pattern matching is not modelled;
  - each `File.ReadAllText` is a `ReadOutcome`, and UTF-8 decoding is not modelled;
  - `File.WriteAllText` and `Clipboard.SetText` are an effect and an optional failure message.
- Roslyn:
  - the workspace load and document lookup are the `Analysis` input;
  - type inference and `ToDisplayString` are data on each declaration;
  - `ParseTypeName` success is an optional spelling;
  - `Simplifier.ReduceAsync` and reading back the text are the `reduce` function parameter.
- Node identity: Roslyn compares nodes by reference; the model gives each type node an `id`. A replacement is a new node in Roslyn; the model gives it the `id` of the slot it replaces, so the `id` marks a position in the tree. A duplicate key in the map is skipped, as `Dictionary.Add` throws inside the per-candidate `try`.
- Stopwatch timings, `async` execution and UI-thread checks.
- Exceptions outside the modelled `try` blocks:
  - `GetTypeInfo` and `ToDisplayString` throwing outside the inner `try` of the conversion;
  - `Path.GetExtension` rejecting invalid path characters in the pre-flight checks;
  - DTE calls throwing inside the selection loop, which the outer `catch` of the selection command reports.
- Paths.FoldAscii: case folding covers ASCII letters only. `OrdinalIgnoreCase` and `ToLowerInvariant` also fold other letters, and may disagree with each other on some of them.
- Paths.FileName: follows the .NET Framework on Windows, where `\`, `/` and `:` all end a file name. Invalid-character checks are not modelled.
- FolderCopy.Concatenate: `filesCopied` (32-bit) and `totalSize` (64-bit) are unbounded naturals, because overflow needs more files or characters than a process can hold.
- SelectionCopy.Concatenate: the same unbounded counters as the folder command.
- ConvertVar.SecondRunPlansNothing:
  - it is stated on the rewritten tree before simplification, because the simplifier is an uninterpreted parameter;
  - it assumes that no fully-qualified spelling is the bare word `var`;
  - it assumes that type nodes are distinct, as they are in one Roslyn tree;
  - the rewrite keeps each declaration's converted type, so it assumes that analysing the rewritten file again gives the same answers for the slots still written `var`.

=== FILE: convert_var.dfy ===
/** The command that replaces `var` in the active C# document with the
    types the compiler infers: the pre-flight checks on the host, the plan
    that maps each convertible `var` slot to its fully-qualified spelling, and
    the decision between "nothing to do", writing the simplified file, and
    reporting an error. */
module ConvertVar {
  import opened Wrappers
  import opened Paths
  import opened Syntax

  // ----- Pre-flight checks -------------------------------------------------

  /** The containing project as the host reports it; a null `FullName` is
      the empty string. */
  datatype ProjectRef = ProjectRef(fullName: string)

  /** The active editor document: its path (null read as empty) and the
      project of its project item, if any. */
  datatype ActiveDocument = ActiveDocument(fullName: string, containingProject: Option<ProjectRef>)

  /** What the command asks of the IDE and the file system before it loads
      anything: whether the automation service answers, the active document,
      and the set of paths `File.Exists` accepts. */
  datatype Host = Host(
    dteAvailable: bool,
    activeDocument: Option<ActiveDocument>,
    existingFiles: set<string>)

  /** The reasons the command stops before touching the workspace, each with
      its own warning or error box. */
  datatype ValidationFailure =
    | NoDte
    | NoActiveDocument
    | NotCSharpFile
    | OwnSourceFile
    | NoContainingProject
    | NoProjectFile

  /** The file to rewrite and the project file to load it from. */
  datatype Target = Target(filePath: string, projectPath: string)

  /** The file name the command refuses to run on, compared ignoring case. */
  const OwnSourceName: string := "JDWConvertVarCommand.cs"

  /** Non-empty, existing, and with an extension that lower-cases to ".cs". */
  predicate IsCSharpDocument(path: string, files: set<string>) {
    path != "" && path in files && ToLowerAscii(Extension(path)) == ".cs"
  }

  /** The order in which the checks run. */
  function Rank(f: ValidationFailure): nat {
    match f
    case NoDte => 0
    case NoActiveDocument => 1
    case NotCSharpFile => 2
    case OwnSourceFile => 3
    case NoContainingProject => 4
    case NoProjectFile => 5
  }

  /** Whether the check behind `f`, taken on its own, rejects `h`. A check
      whose input the host does not supply (no document to inspect) does not
      reject; the checks before it do. */
  predicate Fails(h: Host, f: ValidationFailure) {
    match f
    case NoDte => !h.dteAvailable
    case NoActiveDocument => h.activeDocument.None?
    case NotCSharpFile =>
      h.activeDocument.Some? && !IsCSharpDocument(h.activeDocument.value.fullName, h.existingFiles)
    case OwnSourceFile =>
      h.activeDocument.Some? && EqualsIgnoreCase(FileName(h.activeDocument.value.fullName), OwnSourceName)
    case NoContainingProject =>
      h.activeDocument.Some? && h.activeDocument.value.containingProject.None?
    case NoProjectFile =>
      && h.activeDocument.Some?
      && h.activeDocument.value.containingProject.Some?
      && var p := h.activeDocument.value.containingProject.value.fullName;
         p == "" || p !in h.existingFiles
  }

  /** The chain of early returns in front of the workspace load. It stops at
      the first check, in the fixed order, that rejects the host; when every
      check passes it yields the document and project paths. */
  function Validate(h: Host): (r: Result<Target, ValidationFailure>)
    ensures r.Failure? ==> Fails(h, r.error)
    ensures r.Success? <==> forall f :: !Fails(h, f)
    ensures r.Failure? ==> forall f :: Rank(f) < Rank(r.error) ==> !Fails(h, f)
    ensures r.Success? ==>
      && h.activeDocument.Some?
      && h.activeDocument.value.containingProject.Some?
      && r.value.filePath == h.activeDocument.value.fullName
      && r.value.projectPath == h.activeDocument.value.containingProject.value.fullName
  {
    if !h.dteAvailable then
      assert Fails(h, NoDte); Failure(NoDte)
    else if h.activeDocument.None? then
      assert Fails(h, NoActiveDocument); Failure(NoActiveDocument)
    else
      var doc := h.activeDocument.value;
      if !IsCSharpDocument(doc.fullName, h.existingFiles) then
        assert Fails(h, NotCSharpFile); Failure(NotCSharpFile)
      else if EqualsIgnoreCase(FileName(doc.fullName), OwnSourceName) then
        assert Fails(h, OwnSourceFile); Failure(OwnSourceFile)
      else if doc.containingProject.None? then
        assert Fails(h, NoContainingProject); Failure(NoContainingProject)
      else
        var projectPath := doc.containingProject.value.fullName;
        if projectPath == "" || projectPath !in h.existingFiles then
          assert Fails(h, NoProjectFile); Failure(NoProjectFile)
        else Success(Target(doc.fullName, projectPath))
  }

  /** The self-file guard refuses the command's own source file whatever
      its directory and letter case, once the document itself exists: the
      name ends in ".cs", so the extension check before the guard passes. */
  lemma OwnSourceRefused(h: Host)
    requires h.dteAvailable && h.activeDocument.Some?
    requires h.activeDocument.value.fullName in h.existingFiles
    requires EqualsIgnoreCase(FileName(h.activeDocument.value.fullName), OwnSourceName)
    ensures Validate(h) == Failure(OwnSourceFile)
  {
    var p := h.activeDocument.value.fullName;
    OwnSourceNameIsCSharp(p);
    CSharpExtensionLowersToCs(p);
  }

  lemma OwnSourceNameIsCSharp(p: string)
    requires EqualsIgnoreCase(FileName(p), OwnSourceName)
    ensures p != "" && HasCSharpExtension(p)
  {
    var n := FileName(p);
    EqualsIgnoreCaseSuffix(n, OwnSourceName, 3);
    assert OwnSourceName[|OwnSourceName| - 3..] == ".cs";
    NameEndingInCsHasCSharpExtension(p);
  }

  // ----- Candidate filter and replacement plan -----------------------------

  /** The negation of the exclusion test: a converted type exists, is not an
      error type, is not anonymous, and does not display as `var`. */
  predicate Accepts(t: Option<TypeSymbol>) {
    && t.Some?
    && t.value.kind != Error
    && !t.value.isAnonymous
    && t.value.display != "var"
  }

  /** An accepted candidate whose fully-qualified spelling could be produced. */
  predicate Convertible(d: VarDecl) {
    Accepts(d.convertedType) && d.convertedType.value.qualifiedSpelling.Some?
  }

  function Spelling(d: VarDecl): string
    requires Convertible(d)
  {
    d.convertedType.value.qualifiedSpelling.value
  }

  /** The parsed explicit type, given the trivia of the slot it replaces and
      the simplifier annotation. */
  function ReplacementFor(slot: TypeNode, spelling: string): TypeNode {
    TypeNode(slot.id, spelling, slot.trivia, true)
  }

  /** One pass of the loop over the candidates. A rejected candidate is
      skipped; so is one whose spelling fails, and so is one whose node is
      already a key, because `Dictionary.Add` throws inside the same `try`.
      Entries already made are never changed, and the candidate's node is a
      key afterwards exactly when it was one before or the candidate is
      convertible. */
  function AddCandidate(m: map<nat, TypeNode>, d: VarDecl): (r: map<nat, TypeNode>)
    ensures forall k :: k in m ==> k in r && r[k] == m[k]
    ensures forall k :: k in r ==> k in m || (k == d.typeSlot.id && Convertible(d))
    ensures d.typeSlot.id in r <==> d.typeSlot.id in m || Convertible(d)
    ensures d.typeSlot.id !in m && Convertible(d) ==>
      r[d.typeSlot.id] == ReplacementFor(d.typeSlot, Spelling(d))
  {
    if !Accepts(d.convertedType) then m
    else match d.convertedType.value.qualifiedSpelling
      case None => m
      case Some(s) =>
        if d.typeSlot.id in m then m else m[d.typeSlot.id := ReplacementFor(d.typeSlot, s)]
  }

  /** `nodesToReplace` after the loop has visited `cands` in order; it never
      has more entries than there are candidates. */
  function Plan(cands: seq<VarDecl>): (r: map<nat, TypeNode>)
    ensures |r| <= |cands|
  {
    if cands == [] then map[]
    else AddCandidate(Plan(cands[..|cands| - 1]), cands[|cands| - 1])
  }

  /** Each key of the plan is the node of a convertible candidate, mapped to
      that candidate's fully-qualified spelling carrying the candidate's own
      trivia and the simplifier tag. */
  lemma {:induction false} PlanSound(cands: seq<VarDecl>)
    ensures forall k :: k in Plan(cands) ==>
      exists i :: 0 <= i < |cands| && Realises(cands[i], k, Plan(cands)[k])
    decreases |cands|
  {
    if cands != [] {
      var init := cands[..|cands| - 1];
      PlanSound(init);
      var prev := Plan(init);
      var r := Plan(cands);
      assert r == AddCandidate(prev, cands[|cands| - 1]);
      forall k | k in r
        ensures exists i :: 0 <= i < |cands| && Realises(cands[i], k, r[k])
      {
        if k in prev {
          var i :| 0 <= i < |init| && Realises(init[i], k, prev[k]);
          assert cands[i] == init[i];
        } else {
          assert Realises(cands[|cands| - 1], k, r[k]);
        }
      }
    }
  }

  /** Every convertible candidate's node has an entry in the plan. */
  lemma {:induction false} PlanComplete(cands: seq<VarDecl>)
    ensures forall i :: 0 <= i < |cands| && Convertible(cands[i]) ==> cands[i].typeSlot.id in Plan(cands)
    decreases |cands|
  {
    if cands != [] {
      var init := cands[..|cands| - 1];
      PlanComplete(init);
      var r := Plan(cands);
      assert r == AddCandidate(Plan(init), cands[|cands| - 1]);
      forall i | 0 <= i < |cands| && Convertible(cands[i])
        ensures cands[i].typeSlot.id in r
      {
        if i < |cands| - 1 {
          assert cands[i] == init[i];
        }
      }
    }
  }

  /** `t`, stored under key `k`, is the replacement built for candidate `d`:
      `d` is convertible, `k` is its node, and `t` spells its type with the
      node's trivia and the simplifier tag. */
  predicate Realises(d: VarDecl, k: nat, t: TypeNode) {
    && d.typeSlot.id == k
    && Convertible(d)
    && t.id == k
    && t.text == Spelling(d)
    && t.trivia == d.typeSlot.trivia
    && t.simplifierTag
  }

  function CountConvertible(cands: seq<VarDecl>): nat {
    if cands == [] then 0
    else CountConvertible(cands[..|cands| - 1]) + (if Convertible(cands[|cands| - 1]) then 1 else 0)
  }

  /** With distinct nodes, the size of the plan (the count the success
      message reports) is exactly the number of convertible candidates. */
  lemma {:induction false} PlanSizeIsConvertibleCount(cands: seq<VarDecl>)
    requires DistinctIds(cands)
    ensures |Plan(cands)| == CountConvertible(cands)
    decreases |cands|
  {
    if cands != [] {
      var init := cands[..|cands| - 1];
      var last := cands[|cands| - 1];
      assert DistinctIds(init);
      PlanSizeIsConvertibleCount(init);
      PlanSound(init);
    }
  }

  /** Filtering keeps distinct nodes distinct: the `var` candidates of
      declarations with pairwise different type nodes have pairwise
      different type nodes. */
  lemma {:induction false} VarOnlyDistinct(ds: seq<VarDecl>)
    requires DistinctIds(ds)
    ensures DistinctIds(VarOnly(ds))
    decreases |ds|
  {
    if ds != [] {
      var init, last := ds[..|ds| - 1], ds[|ds| - 1];
      assert DistinctIds(init);
      VarOnlyDistinct(init);
      var p := VarOnly(init);
      forall i | 0 <= i < |p|
        ensures p[i].typeSlot.id != last.typeSlot.id
      {
        assert p[i] in init;
        var j :| 0 <= j < |init| && init[j] == p[i];
        assert ds[j] == p[i];
      }
    }
  }

  /** In one syntax tree the candidates the scan delivers have distinct
      type nodes. */
  lemma CandidatesDistinct(cu: CompilationUnit)
    requires UniqueIds(cu)
    ensures DistinctIds(Candidates(cu))
  {
    VarOnlyDistinct(Declarations(cu));
  }

  /** The count the success message reports is the number of `var`
      declarations of the file whose type is accepted and whose spelling
      parses. */
  lemma ReplacedCountIsConvertibleCount(
    t: Target,
    root: CompilationUnit,
    reduce: CompilationUnit -> Result<string, string>,
    writeError: Option<string>)
    requires UniqueIds(root)
    ensures var s := Convert(t, root, reduce, writeError);
      s.outcome.Replaced? ==> s.outcome.count == CountConvertible(Candidates(root))
  {
    CandidatesDistinct(root);
    PlanSizeIsConvertibleCount(Candidates(root));
  }

  /** A candidate that is rejected, or whose spelling fails, changes nothing:
      the plan for the whole sequence is the plan without it, so every later
      candidate is still processed as before. */
  lemma {:induction false} UnconvertibleCandidateSkipped(a: seq<VarDecl>, d: VarDecl, b: seq<VarDecl>)
    requires !Convertible(d)
    ensures Plan(a + [d] + b) == Plan(a + b)
    decreases |b|
  {
    if b == [] {
      assert (a + [d] + b)[..|a + [d] + b| - 1] == a;
      assert a + b == a;
    } else {
      var b' := b[..|b| - 1];
      var x := b[|b| - 1];
      assert (a + [d] + b)[..|a + [d] + b| - 1] == a + [d] + b';
      assert (a + [d] + b)[|a + [d] + b| - 1] == x;
      assert (a + b)[..|a + b| - 1] == a + b';
      assert (a + b)[|a + b| - 1] == x;
      UnconvertibleCandidateSkipped(a, d, b');
    }
  }

  /** In a file whose declarations all have distinct nodes, the rewrite
      replaces exactly the convertible `var` slots, each by its
      fully-qualified spelling with the original trivia and the simplifier
      tag, and leaves every other declaration, anonymous-typed and
      error-typed ones included, exactly as it was. */
  lemma RewriteReplacesExactlyConvertible(cu: CompilationUnit)
    requires UniqueIds(cu)
    ensures var ds := Declarations(cu);
      var ds' := Declarations(Rewrite(cu, Plan(Candidates(cu))));
      && |ds'| == |ds|
      && forall i :: 0 <= i < |ds| ==>
           && ds'[i].typeSlot.trivia == ds[i].typeSlot.trivia
           && (if IsVar(ds[i].typeSlot) && Convertible(ds[i])
               then ds'[i] == ds[i].(typeSlot := ReplacementFor(ds[i].typeSlot, Spelling(ds[i])))
               else ds'[i] == ds[i])
  {
    var ds := Declarations(cu);
    var cands := Candidates(cu);
    var plan := Plan(cands);
    PlanSound(cands);
    PlanComplete(cands);
    RewriteDeclarations(cu, plan);
    forall i | 0 <= i < |ds|
      ensures var d' := ReplaceSlot(ds[i], plan);
        && d'.typeSlot.trivia == ds[i].typeSlot.trivia
        && (if IsVar(ds[i].typeSlot) && Convertible(ds[i])
            then d' == ds[i].(typeSlot := ReplacementFor(ds[i].typeSlot, Spelling(ds[i])))
            else d' == ds[i])
    {
      var k := ds[i].typeSlot.id;
      if k in plan {
        var j :| 0 <= j < |cands| && Realises(cands[j], k, plan[k]);
        assert cands[j] in ds;
        var j' :| 0 <= j' < |ds| && ds[j'] == cands[j];
        assert j' == i;
      }
    }
  }

  /** The rewrite is idempotent in the sense that matters to the user:
      running the command again on its own output plans nothing, because
      every convertible `var` slot has been replaced and the ones left are
      exactly those the filter rejects or whose spelling fails. */
  lemma SecondRunPlansNothing(cu: CompilationUnit)
    requires UniqueIds(cu)
    requires forall d :: d in Declarations(cu) && Convertible(d) ==> Spelling(d) != "var"
    ensures Plan(Candidates(Rewrite(cu, Plan(Candidates(cu))))) == map[]
  {
    var cu' := Rewrite(cu, Plan(Candidates(cu)));
    RewriteReplacesExactlyConvertible(cu);
    var ds := Declarations(cu);
    var ds' := Declarations(cu');
    var cands' := Candidates(cu');
    forall i | 0 <= i < |cands'|
      ensures !Convertible(cands'[i])
    {
      assert cands'[i] in ds';
      var j :| 0 <= j < |ds'| && ds'[j] == cands'[i];
      assert ds[j] in ds;
    }
    NoConvertibleNoPlan(cands');
  }

  lemma {:induction false} NoConvertibleNoPlan(cands: seq<VarDecl>)
    requires forall i :: 0 <= i < |cands| ==> !Convertible(cands[i])
    ensures Plan(cands) == map[]
  {
    PlanSound(cands);
  }

  // ----- The whole command ---------------------------------------------------

  /** What loading the project and analysing the document delivers: an
      exception, the document missing from the workspace, the document object
      missing, no semantic model or syntax root, or the analysed file. */
  datatype Analysis =
    | LoadThrew(message: string)
    | DocumentIdMissing
    | DocumentMissing
    | AnalysisMissing
    | Analysed(root: CompilationUnit)

  /** The externally visible actions, in order. `WriteFile` is recorded when
      the write is attempted. */
  datatype Effect = OpenProject(projectPath: string) | WriteFile(path: string, text: string)

  /** The message box the command ends with. */
  datatype Outcome =
    | Rejected(failure: ValidationFailure)
    | DocumentNotInWorkspace
    | DocumentUnavailable
    | AnalysisUnavailable
    | NothingToReplace
    | Replaced(count: nat)
    | UnexpectedError(message: string)

  datatype Session = Session(effects: seq<Effect>, outcome: Outcome)

  predicate WritesFile(s: Session) {
    exists i :: 0 <= i < |s.effects| && s.effects[i].WriteFile?
  }

  /** The part of the run inside the `using` block once the document is
      analysed: an empty plan reports "nothing to replace" and writes nothing;
      a non-empty plan writes the simplified text to the document's own path
      and reports the plan's size, unless simplification or the write throws.
      The write comes only after simplification has succeeded. */
  function Convert(
    t: Target,
    root: CompilationUnit,
    reduce: CompilationUnit -> Result<string, string>,
    writeError: Option<string>): (s: Session)
    ensures |s.effects| >= 1 && s.effects[0] == OpenProject(t.projectPath)
    ensures s.outcome == NothingToReplace <==> Plan(Candidates(root)) == map[]
    ensures s.outcome == NothingToReplace ==> !WritesFile(s)
    ensures var plan := Plan(Candidates(root));
      plan != map[] && reduce(Rewrite(root, plan)).Success? ==> WritesFile(s)
    ensures !WritesFile(s) ==> s.effects == [OpenProject(t.projectPath)]
    ensures WritesFile(s) ==>
      && var plan := Plan(Candidates(root));
         && plan != map[]
         && reduce(Rewrite(root, plan)).Success?
         && s.effects == [OpenProject(t.projectPath), WriteFile(t.filePath, reduce(Rewrite(root, plan)).value)]
    ensures var plan := Plan(Candidates(root));
      plan != map[] && reduce(Rewrite(root, plan)).Failure? ==>
        !WritesFile(s) && s.outcome == UnexpectedError(reduce(Rewrite(root, plan)).error)
    ensures s.outcome.Replaced? <==> WritesFile(s) && writeError.None?
    ensures WritesFile(s) && writeError.Some? ==> s.outcome == UnexpectedError(writeError.value)
    ensures s.outcome.Replaced? ==>
      s.outcome.count == |Plan(Candidates(root))| && 0 < s.outcome.count <= |Candidates(root)|
  {
    var loaded := [OpenProject(t.projectPath)];
    var plan := Plan(Candidates(root));
    if |plan| == 0 then
      Session(loaded, NothingToReplace)
    else
      match reduce(Rewrite(root, plan))
      case Failure(msg) => Session(loaded, UnexpectedError(msg))
      case Success(text) =>
        var written := loaded + [WriteFile(t.filePath, text)];
        assert written[1].WriteFile?;
        match writeError
        case Some(msg) => Session(written, UnexpectedError(msg))
        case None => Session(written, Replaced(|plan|))
  }

  /** One run of the command. `reduce` stands for rewriting the document
      root, `Simplifier.ReduceAsync` and reading back the text (success) or
      the message of the exception it throws; `writeError` is the message of
      the exception `File.WriteAllText` throws, if any. A failed check
      returns before any workspace is opened; a load that throws or finds no
      document ends with its own message and no write. */
  function Run(
    h: Host,
    analysis: Analysis,
    reduce: CompilationUnit -> Result<string, string>,
    writeError: Option<string>): (s: Session)
    ensures Validate(h).Failure? ==> s.effects == [] && s.outcome == Rejected(Validate(h).error)
    ensures Validate(h).Success? ==>
      |s.effects| >= 1 && s.effects[0] == OpenProject(Validate(h).value.projectPath)
    ensures !analysis.Analysed? ==> !WritesFile(s) && !s.outcome.Replaced? && s.outcome != NothingToReplace
    ensures Validate(h).Success? && analysis.LoadThrew? ==>
      s.outcome == UnexpectedError(analysis.message)
    ensures Validate(h).Success? && analysis.DocumentIdMissing? ==> s.outcome == DocumentNotInWorkspace
    ensures Validate(h).Success? && analysis.DocumentMissing? ==> s.outcome == DocumentUnavailable
    ensures Validate(h).Success? && analysis.AnalysisMissing? ==> s.outcome == AnalysisUnavailable
    ensures analysis.Analysed? && Validate(h).Success? ==>
      s == Convert(Validate(h).value, analysis.root, reduce, writeError)
  {
    match Validate(h)
    case Failure(f) => Session([], Rejected(f))
    case Success(t) =>
      var loaded := [OpenProject(t.projectPath)];
      match analysis
      case LoadThrew(msg) => Session(loaded, UnexpectedError(msg))
      case DocumentIdMissing => Session(loaded, DocumentNotInWorkspace)
      case DocumentMissing => Session(loaded, DocumentUnavailable)
      case AnalysisMissing => Session(loaded, AnalysisUnavailable)
      case Analysed(root) => Convert(t, root, reduce, writeError)
  }
}

=== FILE: folder_copy.dfy ===
/** The folder command that copies every `.cs` file directly inside the
    selected folder to the clipboard: the files are read in the order the
    directory listing returns them, each success contributes a marked block,
    each failure one error line, and the command ends with the clipboard set,
    a warning, or a notice. */
module FolderCopy {
  import opened Wrappers
  import opened Paths
  import opened ScriptText

  /** One listed file and what reading it produced. */
  datatype FileRead = FileRead(path: string, outcome: ReadOutcome)

  /** What `Directory.GetFiles` delivers: the files with their read results,
      or the message of the exception it threw. */
  datatype Listing =
    | Listed(files: seq<FileRead>)
    | AccessDenied(message: string)
    | ListingFailed(message: string)

  /** The message box the command ends with; `NoMessage` is the branch the
      source leaves without a message. */
  datatype FolderOutcome =
    | NoFilesFound
    | Copied(filesCopied: nat, totalSize: nat)
    | ClipboardFailed(message: string)
    | NothingReadable
    | NoMessage
    | AccessError(message: string)
    | UnexpectedError(message: string)

  /** The text placed on the clipboard, if any, and the closing message. */
  datatype FolderRun = FolderRun(clipboard: Option<string>, outcome: FolderOutcome)

  /** What one file adds: for a success its three marked lines and a blank
      line, for a failure its error line and a blank line. */
  function Block(f: FileRead, nl: string): string {
    var name := FileName(f.path);
    match f.outcome
    case Content(c) => SuccessBlock(name, c, nl) + nl
    case _ => Line(ErrorMarker(name, f.outcome) + nl, nl)
  }

  /** The blocks of all files, in listing order. */
  function FolderText(fs: seq<FileRead>, nl: string): string {
    if fs == [] then "" else Block(fs[0], nl) + FolderText(fs[1..], nl)
  }

  /** The number of files read successfully. */
  function CopiedCount(fs: seq<FileRead>): nat {
    if fs == [] then 0 else (if fs[0].outcome.Content? then 1 else 0) + CopiedCount(fs[1..])
  }

  /** The total length of the contents read successfully. */
  function TotalSize(fs: seq<FileRead>): nat {
    if fs == [] then 0
    else (if fs[0].outcome.Content? then Utf16Length(fs[0].outcome.text) else 0) + TotalSize(fs[1..])
  }

  /** One pass of the loop body: the `try` that reads a file and appends its
      three marked lines and counts it, or appends the error line of the
      exception it caught. */
  method AppendFile(text: string, filesCopied: nat, totalSize: nat, f: FileRead, nl: string)
    returns (text': string, filesCopied': nat, totalSize': nat)
    ensures text' == text + FolderText([f], nl)
    ensures filesCopied' == filesCopied + CopiedCount([f])
    ensures totalSize' == totalSize + TotalSize([f])
  {
    SingleFile(f, nl);
    var name := FileName(f.path);
    match f.outcome {
      case Content(c) =>
        var start, body, end := Line(StartMarker(name), nl), Line(c, nl), Line(EndMarker(name) + nl, nl);
        text' := text + start;
        text' := text' + body;
        text' := text' + end;
        AppendThree(text, start, body, end);
        AppendTwo(start + body, Line(EndMarker(name), nl), nl);
        assert Block(f, nl) == (start + body) + end;
        filesCopied', totalSize' := filesCopied + 1, totalSize + Utf16Length(c);
      case _ =>
        text' := text + Line(ErrorMarker(name, f.outcome) + nl, nl);
        filesCopied', totalSize' := filesCopied, totalSize;
    }
  }

  /** The concatenation loop: visits the files in listing order and returns
      the blocks of all of them in that order, the number of successful
      reads, and the sum of their lengths. */
  method Concatenate(fs: seq<FileRead>, nl: string) returns (text: string, filesCopied: nat, totalSize: nat)
    ensures text == FolderText(fs, nl)
    ensures filesCopied == CopiedCount(fs)
    ensures totalSize == TotalSize(fs)
  {
    text, filesCopied, totalSize := "", 0, 0;
    var i := 0;
    while i < |fs|
      invariant 0 <= i <= |fs|
      invariant text == FolderText(fs[..i], nl)
      invariant filesCopied == CopiedCount(fs[..i])
      invariant totalSize == TotalSize(fs[..i])
    {
      PrefixStep(fs, i, nl);
      text, filesCopied, totalSize := AppendFile(text, filesCopied, totalSize, fs[i], nl);
      i := i + 1;
    }
    assert fs[..|fs|] == fs;
  }

  /** The text of a listing is the text of its first part followed by the
      text of the rest, so blocks appear in listing order. */
  lemma {:induction false} FolderTextAppend(a: seq<FileRead>, b: seq<FileRead>, nl: string)
    ensures FolderText(a + b, nl) == FolderText(a, nl) + FolderText(b, nl)
    decreases |a|
  {
    if a == [] {
      assert a + b == b;
    } else {
      assert (a + b)[0] == a[0];
      assert (a + b)[1..] == a[1..] + b;
      FolderTextAppend(a[1..], b, nl);
    }
  }

  /** The counters of a listing add up over its parts. */
  lemma {:induction false} CountsAppend(a: seq<FileRead>, b: seq<FileRead>)
    ensures CopiedCount(a + b) == CopiedCount(a) + CopiedCount(b)
    ensures TotalSize(a + b) == TotalSize(a) + TotalSize(b)
    decreases |a|
  {
    if a == [] {
      assert a + b == b;
    } else {
      assert (a + b)[0] == a[0];
      assert (a + b)[1..] == a[1..] + b;
      CountsAppend(a[1..], b);
    }
  }

  lemma SingleFile(f: FileRead, nl: string)
    ensures FolderText([f], nl) == Block(f, nl)
    ensures CopiedCount([f]) == (if f.outcome.Content? then 1 else 0)
    ensures TotalSize([f]) == (if f.outcome.Content? then Utf16Length(f.outcome.text) else 0)
  {
    assert [f][1..] == [];
  }

  lemma PrefixStep(fs: seq<FileRead>, i: nat, nl: string)
    requires i < |fs|
    ensures FolderText(fs[..i + 1], nl) == FolderText(fs[..i], nl) + FolderText([fs[i]], nl)
    ensures CopiedCount(fs[..i + 1]) == CopiedCount(fs[..i]) + CopiedCount([fs[i]])
    ensures TotalSize(fs[..i + 1]) == TotalSize(fs[..i]) + TotalSize([fs[i]])
  {
    assert fs[..i + 1] == fs[..i] + [fs[i]];
    FolderTextAppend(fs[..i], [fs[i]], nl);
    CountsAppend(fs[..i], [fs[i]]);
  }

  /** A failed read leaves the counters as they were and adds only its own
      error line, followed by a blank line, at its place in the text. */
  lemma FailedReadAddsOnlyItsLine(a: seq<FileRead>, f: FileRead, b: seq<FileRead>, nl: string)
    requires !f.outcome.Content?
    ensures CopiedCount(a + [f] + b) == CopiedCount(a + b)
    ensures TotalSize(a + [f] + b) == TotalSize(a + b)
    ensures FolderText(a + [f] + b, nl) ==
      FolderText(a, nl) + Line(ErrorMarker(FileName(f.path), f.outcome) + nl, nl) + FolderText(b, nl)
  {
    FolderTextAppend(a, [f], nl);
    FolderTextAppend(a + [f], b, nl);
    FolderTextAppend(a, b, nl);
    CountsAppend(a, [f]);
    CountsAppend(a + [f], b);
    CountsAppend(a, b);
    SingleFile(f, nl);
  }

  /** Every file adds at least one line, so a non-empty listing never yields
      an empty text. */
  lemma FolderTextNonEmpty(fs: seq<FileRead>, nl: string)
    ensures fs != [] ==> |FolderText(fs, nl)| > 0
  {
  }

  /** The command from the listing on. An empty listing reports that there
      are no files and copies nothing. Otherwise the clipboard receives the
      whole text exactly when at least one file was read and the clipboard
      accepts it, and the confirmation reports the number of successes and
      their total length; when nothing could be read the warning is shown.
      The branch that ends without a message cannot be reached. */
  method CopyFolder(listing: Listing, nl: string, clipboardError: Option<string>) returns (run: FolderRun)
    ensures run.outcome == NoFilesFound <==> listing.Listed? && listing.files == []
    ensures run.clipboard.Some? <==>
      listing.Listed? && CopiedCount(listing.files) > 0 && clipboardError.None?
    ensures run.clipboard.Some? ==>
      && run.clipboard.value == FolderText(listing.files, nl)
      && run.outcome == Copied(CopiedCount(listing.files), TotalSize(listing.files))
    ensures run.outcome == NothingReadable <==>
      listing.Listed? && listing.files != [] && CopiedCount(listing.files) == 0
    ensures run.outcome.Copied? <==> run.clipboard.Some?
    ensures listing.Listed? && CopiedCount(listing.files) > 0 && clipboardError.Some? ==>
      run == FolderRun(None, ClipboardFailed(clipboardError.value))
    ensures listing.AccessDenied? ==> run == FolderRun(None, AccessError(listing.message))
    ensures listing.ListingFailed? ==> run == FolderRun(None, UnexpectedError(listing.message))
    ensures run.outcome != NoMessage
  {
    match listing {
      case AccessDenied(msg) => return FolderRun(None, AccessError(msg));
      case ListingFailed(msg) => return FolderRun(None, UnexpectedError(msg));
      case Listed(fs) =>
        if |fs| == 0 {
          return FolderRun(None, NoFilesFound);
        }
        var text, filesCopied, totalSize := Concatenate(fs, nl);
        FolderTextNonEmpty(fs, nl);
        if |text| > 0 && filesCopied > 0 {
          match clipboardError {
            case Some(msg) => run := FolderRun(None, ClipboardFailed(msg));
            case None => run := FolderRun(Some(text), Copied(filesCopied, totalSize));
          }
        } else if filesCopied == 0 {
          run := FolderRun(None, NothingReadable);
        } else {
          run := FolderRun(None, NoMessage);
        }
    }
  }
}

=== FILE: paths.dfy ===
/** The path helpers the commands rely on: `Path.GetFileName`,
    `Path.GetExtension`, `ToLowerInvariant` and ordinal case-insensitive
    comparison, as the .NET Framework defines them on Windows, with case
    folding restricted to ASCII letters. */
module Paths {
  import opened Wrappers

  /** The directory separator `\`, the alternative separator `/` and the
      volume separator `:`; both path functions stop at any of them. */
  predicate IsSeparator(c: char) {
    c == '\\' || c == '/' || c == ':'
  }

  /** `Path.GetFileName`: the part of `p` after its last separator. */
  function FileName(p: string): (r: string)
    ensures |r| <= |p| && r == p[|p| - |r|..]
  {
    if |p| == 0 then ""
    else if IsSeparator(p[|p| - 1]) then ""
    else FileName(p[..|p| - 1]) + [p[|p| - 1]]
  }

  /** No separator occurs in the file name. */
  lemma {:induction false} FileNameHasNoSeparator(p: string)
    ensures forall i :: 0 <= i < |FileName(p)| ==> !IsSeparator(FileName(p)[i])
    decreases |p|
  {
    if |p| > 0 && !IsSeparator(p[|p| - 1]) {
      var q := p[..|p| - 1];
      FileNameHasNoSeparator(q);
      var r, r' := FileName(p), FileName(q);
      assert r == r' + [p[|p| - 1]];
      forall i | 0 <= i < |r|
        ensures !IsSeparator(r[i])
      {
        if i < |r'| {
          assert r[i] == r'[i];
        }
      }
    }
  }

  /** The file name is the longest separator-free suffix: when it is not the
      whole path, the character just before it is a separator. */
  lemma {:induction false} FileNameFollowsSeparator(p: string)
    ensures |FileName(p)| < |p| ==> IsSeparator(p[|p| - |FileName(p)| - 1])
    decreases |p|
  {
    if |p| > 0 && !IsSeparator(p[|p| - 1]) {
      var q := p[..|p| - 1];
      FileNameFollowsSeparator(q);
      var r, r' := FileName(p), FileName(q);
      assert |r| == |r'| + 1;
      if |r| < |p| {
        assert p[|p| - |r| - 1] == q[|q| - |r'| - 1];
      }
    }
  }

  /** Position of the last '.' that lies inside the file-name part of `p`. */
  function LastDot(p: string): (r: Option<nat>)
    ensures r.Some? ==> r.value < |p| && p[r.value] == '.'
  {
    if |p| == 0 then None
    else if p[|p| - 1] == '.' then Some(|p| - 1)
    else if IsSeparator(p[|p| - 1]) then None
    else LastDot(p[..|p| - 1])
  }

  /** The dot found is the last one of the path and lies in the file name;
      when none is found, the file name has no dot. */
  lemma {:induction false} LastDotSpec(p: string)
    ensures var r := LastDot(p);
      && (r.Some? ==> |p| - |FileName(p)| <= r.value)
      && (r.Some? ==> forall j :: r.value < j < |p| ==> p[j] != '.')
      && (r.None? ==> '.' !in FileName(p))
    decreases |p|
  {
    if |p| > 0 && p[|p| - 1] != '.' && !IsSeparator(p[|p| - 1]) {
      var q := p[..|p| - 1];
      LastDotSpec(q);
      var n, n' := FileName(p), FileName(q);
      assert n == n' + [p[|p| - 1]];
      if LastDot(q).Some? {
        forall j | LastDot(q).value < j < |p|
          ensures p[j] != '.'
        {
          if j < |q| {
            assert p[j] == q[j];
          }
        }
      }
    }
  }

  /** `Path.GetExtension`: from the last '.' of the file name to the end, or
      empty when the file name has no '.' or ends with one. */
  function Extension(p: string): (r: string)
    ensures |r| <= |p| && r == p[|p| - |r|..]
    ensures r != "" ==> r[0] == '.'
  {
    match LastDot(p)
    case None => ""
    case Some(i) => if i == |p| - 1 then "" else p[i..]
  }

  /** The extension is empty exactly when the file name has no '.' or the
      path ends with one; otherwise it is a part of the file name that starts
      with its last '.' and has at least one character after it. */
  lemma ExtensionSpec(p: string)
    ensures var r := Extension(p);
      && (r == "" <==> '.' !in FileName(p) || (|p| > 0 && p[|p| - 1] == '.'))
      && (r != "" ==> |r| >= 2 && '.' !in r[1..] && |r| <= |FileName(p)|)
  {
    LastDotSpec(p);
    var r, n := Extension(p), FileName(p);
    if LastDot(p).Some? {
      var i := LastDot(p).value;
      assert n[i - (|p| - |n|)] == p[i];
      if r != "" {
        assert r == p[i..];
        assert forall j :: 1 <= j < |r| ==> r[j] == p[i + j];
      }
    }
  }

  /** ASCII case folding to lower case, the part of `ToLowerInvariant` and of
      ordinal case-insensitive comparison that this model keeps. */
  function FoldAscii(c: char): char {
    if 'A' <= c <= 'Z' then (c as int + 32) as char else c
  }

  /** `ToLowerInvariant`, restricted to ASCII letters: the result has the
      same length, holds no upper-case letter, and equals the input up to
      case. */
  function ToLowerAscii(s: string): (r: string)
    ensures IsFolded(r) && EqualsIgnoreCase(r, s)
  {
    seq(|s|, i requires 0 <= i < |s| => FoldAscii(s[i]))
  }

  /** Ordinal case-insensitive `Equals`, restricted to ASCII letters. */
  predicate EqualsIgnoreCase(a: string, b: string) {
    |a| == |b| && forall i :: 0 <= i < |a| ==> FoldAscii(a[i]) == FoldAscii(b[i])
  }

  /** Case-insensitive equality carries over to equally long suffixes. */
  lemma EqualsIgnoreCaseSuffix(a: string, b: string, k: nat)
    requires EqualsIgnoreCase(a, b) && k <= |a|
    ensures EqualsIgnoreCase(a[|a| - k..], b[|b| - k..])
  {
    var a', b' := a[|a| - k..], b[|b| - k..];
    forall i | 0 <= i < k
      ensures FoldAscii(a'[i]) == FoldAscii(b'[i])
    {
      assert a'[i] == a[|a| - k + i];
      assert b'[i] == b[|b| - k + i];
    }
  }

  /** No upper-case ASCII letter occurs in `s`. */
  predicate IsFolded(s: string) {
    forall i :: 0 <= i < |s| ==> FoldAscii(s[i]) == s[i]
  }

  /** Lower-casing and comparing with a lower-case literal (the conversion
      command's test) accepts exactly the strings that ordinal
      case-insensitive comparison with that literal accepts (the selection
      command's test). */
  lemma LowerThenCompareIsIgnoreCase(s: string, t: string)
    requires IsFolded(t)
    ensures ToLowerAscii(s) == t <==> EqualsIgnoreCase(s, t)
  {
    if EqualsIgnoreCase(s, t) {
      assert forall i :: 0 <= i < |s| ==> ToLowerAscii(s)[i] == t[i];
    }
  }

  /** The extension test both script commands apply to a path. */
  predicate HasCSharpExtension(p: string) {
    EqualsIgnoreCase(Extension(p), ".cs")
  }

  /** Three characters equal to ".cs" up to case are a dot followed by two
      letters. */
  lemma CsChars(t: string)
    requires EqualsIgnoreCase(t, ".cs")
    ensures |t| == 3 && t[0] == '.'
    ensures t[1] != '.' && !IsSeparator(t[1]) && t[2] != '.' && !IsSeparator(t[2])
  {
    assert FoldAscii(t[0]) == '.' && FoldAscii(t[1]) == 'c' && FoldAscii(t[2]) == 's';
  }

  /** A path ending in a dot and two characters that are neither dots nor
      separators has those three characters as its extension. */
  lemma ExtensionOfShortSuffix(p: string)
    requires |p| >= 3 && p[|p| - 3] == '.'
    requires p[|p| - 2] != '.' && !IsSeparator(p[|p| - 2])
    requires p[|p| - 1] != '.' && !IsSeparator(p[|p| - 1])
    ensures Extension(p) == p[|p| - 3..]
  {
    var k := |p|;
    var q := p[..k - 1];
    var q2 := q[..k - 2];
    assert q2[k - 3] == '.';
    assert LastDot(q2) == Some(k - 3);
    assert LastDot(q) == LastDot(q2);
    assert LastDot(p) == LastDot(q);
  }

  /** A file name ending in ".cs", in any letter case, gives its path a C#
      extension. */
  lemma NameEndingInCsHasCSharpExtension(p: string)
    requires |FileName(p)| >= 3 && EqualsIgnoreCase(FileName(p)[|FileName(p)| - 3..], ".cs")
    ensures HasCSharpExtension(p)
  {
    var n := FileName(p);
    var tail := n[|n| - 3..];
    CsChars(tail);
    assert tail == p[|p| - 3..];
    assert p[|p| - 3] == tail[0] && p[|p| - 2] == tail[1] && p[|p| - 1] == tail[2];
    ExtensionOfShortSuffix(p);
  }

  /** The conversion command's spelling of the extension test agrees with
      the selection command's. */
  lemma CSharpExtensionLowersToCs(p: string)
    ensures HasCSharpExtension(p) <==> ToLowerAscii(Extension(p)) == ".cs"
  {
    assert IsFolded(".cs");
    LowerThenCompareIsIgnoreCase(Extension(p), ".cs");
  }

  /** A C# extension is the last three characters of the file name. */
  lemma CSharpExtensionEndsName(p: string)
    requires HasCSharpExtension(p)
    ensures |FileName(p)| >= 3 && Extension(p) == FileName(p)[|FileName(p)| - 3..]
  {
    ExtensionSpec(p);
    var n, e := FileName(p), Extension(p);
    assert |e| == 3 && |e| <= |n|;
    assert e == p[|p| - 3..];
    assert n[|n| - 3..] == p[|p| - 3..];
  }

  /** A path has a C# extension exactly when its file name ends in ".cs",
      in any letter case. */
  lemma CSharpExtensionIffNameEndsInCs(p: string)
    ensures HasCSharpExtension(p) <==>
      |FileName(p)| >= 3 && EqualsIgnoreCase(FileName(p)[|FileName(p)| - 3..], ".cs")
  {
    var n := FileName(p);
    if HasCSharpExtension(p) {
      CSharpExtensionEndsName(p);
    }
    if |n| >= 3 && EqualsIgnoreCase(n[|n| - 3..], ".cs") {
      NameEndingInCsHasCSharpExtension(p);
    }
  }
}

=== FILE: script_text.dfy ===
/** The text pieces both clipboard commands build their output from: the
    outcome of reading one file, the start, end and error marker lines, and
    `StringBuilder.AppendLine`, whose line terminator (`Environment.NewLine`)
    is a parameter. */
module ScriptText {

  /** Reading one file: its text, or the message of the `IOException`
      (reported as "Error reading") or of any other exception (reported as
      "Error processing") that the read threw. */
  datatype ReadOutcome =
    | Content(text: string)
    | IoFailure(message: string)
    | OtherFailure(message: string)

  function StartMarker(name: string): string {
    "// ===== Start: " + name + " ====="
  }

  function EndMarker(name: string): string {
    "// ===== End: " + name + " ====="
  }

  function ErrorMarker(name: string, o: ReadOutcome): string
    requires !o.Content?
  {
    (if o.IoFailure? then "// ===== Error reading " else "// ===== Error processing ")
    + name + ": " + o.message + " ====="
  }

  /** `AppendLine(s)`: the line followed by the terminator. */
  function Line(s: string, nl: string): string {
    s + nl
  }

  /** The three lines written for a file read in full: the start marker,
      the content, the end marker. */
  function SuccessBlock(name: string, content: string, nl: string): string {
    Line(StartMarker(name), nl) + Line(content, nl) + Line(EndMarker(name), nl)
  }

  /** The start marker, the content and the end marker, each on its own
      line and in that order, with nothing else in the block. */
  lemma SuccessBlockLayout(name: string, content: string, nl: string)
    ensures var r, a, b := SuccessBlock(name, content, nl), |StartMarker(name)| + |nl|, |content| + |nl|;
      && |r| == a + b + |EndMarker(name)| + |nl|
      && r[..a] == StartMarker(name) + nl
      && r[a..a + b] == content + nl
      && r[a + b..] == EndMarker(name) + nl
  {
  }

  /** `String.Length`: the number of UTF-16 code units, so a character
      beyond the Basic Multilingual Plane (a surrogate pair) counts twice.
      It equals the number of characters exactly when every character lies
      in that plane. */
  function Utf16Length(s: string): (n: nat)
    ensures |s| <= n <= 2 * |s|
    ensures n == |s| <==> forall i :: 0 <= i < |s| ==> s[i] as int <= 0xFFFF
  {
    if s == [] then 0
    else
      var n := (if s[0] as int > 0xFFFF then 2 else 1) + Utf16Length(s[1..]);
      assert forall i :: 1 <= i < |s| ==> s[i] == s[1..][i - 1];
      n
  }

  /** Appending two pieces one after another builds the same text as
      appending them joined. */
  lemma AppendTwo(t: string, x: string, y: string)
    ensures (t + x) + y == t + (x + y)
  {
  }

  /** Appending three pieces one after another builds the same text as
      appending them joined; the builders below rely on it. */
  lemma AppendThree(t: string, x: string, y: string, z: string)
    ensures ((t + x) + y) + z == t + ((x + y) + z)
  {
  }
}

=== FILE: selection_copy.dfy ===
/** The command that copies the C# files selected in Solution Explorer to
    the clipboard: only physical `.cs` files that exist are read, in
    selection order; successes are separated by one blank line, failures
    leave one error line, and the clipboard is set exactly when at least one
    file was read. */
module SelectionCopy {
  import opened Wrappers
  import opened Paths
  import opened ScriptText

  /** The `Kind` of a project item; only physical files are read. */
  datatype ItemKind = PhysicalFile | PhysicalFolder | VirtualFolder | OtherKind

  /** A selected entry: not a project item at all, or a project item with
      its kind, its `FullPath` property (`None` when the property is missing,
      throws, or is null) and what reading that path produces. */
  datatype SelectedItem =
    | NonProjectItem
    | ProjectItem(kind: ItemKind, fullPath: Option<string>, read: ReadOutcome)

  /** The filter in front of the read: a physical-file project item whose
      full path is available, non-empty, exists, and has a `.cs` extension in
      any letter case. */
  predicate Eligible(item: SelectedItem, existing: set<string>) {
    && item.ProjectItem?
    && item.kind == PhysicalFile
    && item.fullPath.Some?
    && item.fullPath.value != ""
    && item.fullPath.value in existing
    && HasCSharpExtension(item.fullPath.value)
  }

  /** An eligible item whose file was read in full. */
  predicate Succeeds(item: SelectedItem, existing: set<string>) {
    Eligible(item, existing) && item.read.Content?
  }

  /** What reading one eligible file adds, given whether some earlier file
      was read: for a success a blank line when it is not the first success,
      then its three marked lines; for a failure its error line. */
  function ReadPiece(name: string, read: ReadOutcome, nl: string, copiedBefore: bool): string {
    match read
    case Content(c) => (if copiedBefore then nl else "") + SuccessBlock(name, c, nl)
    case _ => Line(ErrorMarker(name, read), nl)
  }

  /** What one item adds: nothing for an ineligible item, otherwise what
      reading its file adds. */
  function Piece(item: SelectedItem, existing: set<string>, nl: string, copiedBefore: bool): string {
    if !Eligible(item, existing) then ""
    else ReadPiece(FileName(item.fullPath.value), item.read, nl, copiedBefore)
  }

  /** The text of the items in selection order, starting with or without an
      earlier success. */
  function TextFrom(items: seq<SelectedItem>, existing: set<string>, nl: string, copiedBefore: bool): string {
    if items == [] then ""
    else
      Piece(items[0], existing, nl, copiedBefore)
      + TextFrom(items[1..], existing, nl, copiedBefore || Succeeds(items[0], existing))
  }

  function SelectionText(items: seq<SelectedItem>, existing: set<string>, nl: string): string {
    TextFrom(items, existing, nl, false)
  }

  /** The number of files read successfully. */
  function CopiedCount(items: seq<SelectedItem>, existing: set<string>): nat {
    if items == [] then 0
    else (if Succeeds(items[0], existing) then 1 else 0) + CopiedCount(items[1..], existing)
  }

  /** The total length of the contents read successfully. */
  function TotalSize(items: seq<SelectedItem>, existing: set<string>): nat {
    if items == [] then 0
    else
      (if Succeeds(items[0], existing) then Utf16Length(items[0].read.text) else 0)
      + TotalSize(items[1..], existing)
  }

  /** The counters of a selection add up over its parts. */
  lemma {:induction false} CountsAppend(a: seq<SelectedItem>, b: seq<SelectedItem>, existing: set<string>)
    ensures CopiedCount(a + b, existing) == CopiedCount(a, existing) + CopiedCount(b, existing)
    ensures TotalSize(a + b, existing) == TotalSize(a, existing) + TotalSize(b, existing)
    decreases |a|
  {
    if a == [] {
      assert a + b == b;
    } else {
      assert (a + b)[0] == a[0];
      assert (a + b)[1..] == a[1..] + b;
      CountsAppend(a[1..], b, existing);
    }
  }

  /** The text of a selection is the text of its first part followed by the
      text of the rest, the rest starting with the knowledge of whether the
      first part copied a file. */
  lemma {:induction false} SelectionAppend(
    a: seq<SelectedItem>, b: seq<SelectedItem>, existing: set<string>, nl: string, copiedBefore: bool)
    ensures TextFrom(a + b, existing, nl, copiedBefore) ==
      TextFrom(a, existing, nl, copiedBefore)
      + TextFrom(b, existing, nl, copiedBefore || CopiedCount(a, existing) > 0)
    decreases |a|
  {
    if a == [] {
      assert a + b == b;
      assert TextFrom(a, existing, nl, copiedBefore) == "";
      assert "" + TextFrom(b, existing, nl, copiedBefore) == TextFrom(b, existing, nl, copiedBefore);
    } else {
      var x, a' := a[0], a[1..];
      var s' := copiedBefore || Succeeds(x, existing);
      var p := Piece(x, existing, nl, copiedBefore);
      assert (a + b)[0] == x;
      assert (a + b)[1..] == a' + b;
      SelectionAppend(a', b, existing, nl, s');
      assert s' || CopiedCount(a', existing) > 0 <==> copiedBefore || CopiedCount(a, existing) > 0;
      var ta, tb := TextFrom(a', existing, nl, s'), TextFrom(b, existing, nl, copiedBefore || CopiedCount(a, existing) > 0);
      assert TextFrom(a + b, existing, nl, copiedBefore) == p + (ta + tb);
      assert TextFrom(a, existing, nl, copiedBefore) == p + ta;
      AppendTwo(p, ta, tb);
    }
  }

  lemma SingleItem(item: SelectedItem, existing: set<string>, nl: string, copiedBefore: bool)
    ensures TextFrom([item], existing, nl, copiedBefore) == Piece(item, existing, nl, copiedBefore)
    ensures CopiedCount([item], existing) == (if Succeeds(item, existing) then 1 else 0)
    ensures TotalSize([item], existing) == (if Succeeds(item, existing) then Utf16Length(item.read.text) else 0)
  {
    var p := Piece(item, existing, nl, copiedBefore);
    assert [item][1..] == [];
    assert TextFrom([item], existing, nl, copiedBefore) == p + "";
  }

  lemma PrefixStep(items: seq<SelectedItem>, i: nat, existing: set<string>, nl: string)
    requires i < |items|
    ensures SelectionText(items[..i + 1], existing, nl) ==
      SelectionText(items[..i], existing, nl) + Piece(items[i], existing, nl, CopiedCount(items[..i], existing) > 0)
    ensures CopiedCount(items[..i + 1], existing) == CopiedCount(items[..i], existing) + CopiedCount([items[i]], existing)
    ensures TotalSize(items[..i + 1], existing) == TotalSize(items[..i], existing) + TotalSize([items[i]], existing)
  {
    assert items[..i + 1] == items[..i] + [items[i]];
    SelectionAppend(items[..i], [items[i]], existing, nl, false);
    CountsAppend(items[..i], [items[i]], existing);
    SingleItem(items[i], existing, nl, CopiedCount(items[..i], existing) > 0);
  }

  /** Running the loop body on item `i` after the first `i` items keeps the
      loop's account of the text and counters. */
  lemma LoopStep(
    items: seq<SelectedItem>, i: nat, existing: set<string>, nl: string,
    text: string, filesCopied: nat, totalSize: nat)
    requires i < |items|
    requires text == SelectionText(items[..i], existing, nl)
    requires filesCopied == CopiedCount(items[..i], existing)
    requires totalSize == TotalSize(items[..i], existing)
    ensures text + Piece(items[i], existing, nl, filesCopied > 0) == SelectionText(items[..i + 1], existing, nl)
    ensures filesCopied + CopiedCount([items[i]], existing) == CopiedCount(items[..i + 1], existing)
    ensures totalSize + TotalSize([items[i]], existing) == TotalSize(items[..i + 1], existing)
  {
    PrefixStep(items, i, existing, nl);
  }

  /** The `try` around one read: append a blank line (if a file was already
      copied) and the file's three marked lines and count it, or append the
      error line of the exception caught and count nothing. */
  method AppendRead(
    text: string, filesCopied: nat, totalSize: nat,
    name: string, read: ReadOutcome, nl: string)
    returns (text': string, filesCopied': nat, totalSize': nat)
    ensures text' == text + ReadPiece(name, read, nl, filesCopied > 0)
    ensures filesCopied' == filesCopied + (if read.Content? then 1 else 0)
    ensures totalSize' == totalSize + (if read.Content? then Utf16Length(read.text) else 0)
  {
    match read {
      case Content(c) =>
        var sep := if filesCopied > 0 then nl else "";
        var start, body, end := Line(StartMarker(name), nl), Line(c, nl), Line(EndMarker(name), nl);
        AppendThree(text + sep, start, body, end);
        AppendTwo(text, sep, (start + body) + end);
        text' := text + sep;
        text' := text' + start;
        text' := text' + body;
        text' := text' + end;
        filesCopied', totalSize' := filesCopied + 1, totalSize + Utf16Length(c);
      case _ =>
        text' := text + Line(ErrorMarker(name, read), nl);
        filesCopied', totalSize' := filesCopied, totalSize;
    }
  }

  /** One pass of the loop body: skip an item that is not a physical-file
      project item with an available, non-empty, existing `.cs` path;
      otherwise read it. */
  method AppendItem(
    text: string, filesCopied: nat, totalSize: nat,
    item: SelectedItem, existing: set<string>, nl: string)
    returns (text': string, filesCopied': nat, totalSize': nat)
    ensures text' == text + Piece(item, existing, nl, filesCopied > 0)
    ensures filesCopied' == filesCopied + CopiedCount([item], existing)
    ensures totalSize' == totalSize + TotalSize([item], existing)
  {
    SingleItem(item, existing, nl, filesCopied > 0);
    text', filesCopied', totalSize' := text, filesCopied, totalSize;
    if item.ProjectItem? && item.kind == PhysicalFile && item.fullPath.Some? {
      var path := item.fullPath.value;
      if path != "" && path in existing && HasCSharpExtension(path) {
        text', filesCopied', totalSize' := AppendRead(text, filesCopied, totalSize, FileName(path), item.read, nl);
      }
    }
  }

  /** The loop over the selection: returns the pieces of all items in
      selection order, the number of files read, and the sum of their
      lengths. */
  method Concatenate(items: seq<SelectedItem>, existing: set<string>, nl: string)
    returns (text: string, filesCopied: nat, totalSize: nat)
    ensures text == SelectionText(items, existing, nl)
    ensures filesCopied == CopiedCount(items, existing)
    ensures totalSize == TotalSize(items, existing)
  {
    text, filesCopied, totalSize := "", 0, 0;
    var i := 0;
    while i < |items|
      invariant 0 <= i <= |items|
      invariant text == SelectionText(items[..i], existing, nl)
      invariant filesCopied == CopiedCount(items[..i], existing)
      invariant totalSize == TotalSize(items[..i], existing)
    {
      LoopStep(items, i, existing, nl, text, filesCopied, totalSize);
      text, filesCopied, totalSize := AppendItem(text, filesCopied, totalSize, items[i], existing, nl);
      i := i + 1;
    }
    assert items[..|items|] == items;
  }

  /** An ineligible item is skipped silently: it changes neither the text
      nor the counters, wherever it stands in the selection. */
  lemma IneligibleItemSkipped(
    a: seq<SelectedItem>, x: SelectedItem, b: seq<SelectedItem>, existing: set<string>, nl: string)
    requires !Eligible(x, existing)
    ensures SelectionText(a + [x] + b, existing, nl) == SelectionText(a + b, existing, nl)
    ensures CopiedCount(a + [x] + b, existing) == CopiedCount(a + b, existing)
    ensures TotalSize(a + [x] + b, existing) == TotalSize(a + b, existing)
  {
    var s := CopiedCount(a, existing) > 0;
    SingleItem(x, existing, nl, s);
    SelectionAppend(a, [x], existing, nl, false);
    CountsAppend(a, [x], existing);
    var ta := SelectionText(a, existing, nl);
    assert SelectionText(a + [x], existing, nl) == ta + "" == ta;
    SelectionAppend(a + [x], b, existing, nl, false);
    CountsAppend(a + [x], b, existing);
    SelectionAppend(a, b, existing, nl, false);
    CountsAppend(a, b, existing);
  }

  /** A failed read leaves the counters as they were and adds only its own
      error line at its place in the text; the items after it are written as
      if it were absent. */
  lemma FailedItemAddsOnlyItsLine(
    a: seq<SelectedItem>, x: SelectedItem, b: seq<SelectedItem>, existing: set<string>, nl: string)
    requires Eligible(x, existing) && !x.read.Content?
    ensures CopiedCount(a + [x] + b, existing) == CopiedCount(a + b, existing)
    ensures TotalSize(a + [x] + b, existing) == TotalSize(a + b, existing)
    ensures SelectionText(a + [x] + b, existing, nl) ==
      SelectionText(a, existing, nl)
      + Line(ErrorMarker(FileName(x.fullPath.value), x.read), nl)
      + TextFrom(b, existing, nl, CopiedCount(a, existing) > 0)
    ensures SelectionText(a + b, existing, nl) ==
      SelectionText(a, existing, nl) + TextFrom(b, existing, nl, CopiedCount(a, existing) > 0)
  {
    var s := CopiedCount(a, existing) > 0;
    SingleItem(x, existing, nl, s);
    SelectionAppend(a, [x], existing, nl, false);
    CountsAppend(a, [x], existing);
    SelectionAppend(a + [x], b, existing, nl, false);
    CountsAppend(a + [x], b, existing);
    SelectionAppend(a, b, existing, nl, false);
    CountsAppend(a, b, existing);
    var ta, e, tb := SelectionText(a, existing, nl), Line(ErrorMarker(FileName(x.fullPath.value), x.read), nl), TextFrom(b, existing, nl, s);
    assert SelectionText(a + [x], existing, nl) == ta + e;
    assert SelectionText(a + [x] + b, existing, nl) == (ta + e) + tb;
  }

  // ----- Blank lines only between successful blocks --------------------------

  /** The blocks of the files read successfully, in selection order. */
  function Blocks(items: seq<SelectedItem>, existing: set<string>, nl: string): seq<string> {
    if items == [] then []
    else
      var rest := Blocks(items[1..], existing, nl);
      if Succeeds(items[0], existing)
      then [SuccessBlock(FileName(items[0].fullPath.value), items[0].read.text, nl)] + rest
      else rest
  }

  /** The blocks joined with one line terminator between neighbours. */
  function Join(bs: seq<string>, nl: string): string {
    if bs == [] then ""
    else if |bs| == 1 then bs[0]
    else bs[0] + nl + Join(bs[1..], nl)
  }

  /** No eligible item failed to read. */
  predicate NoFailures(items: seq<SelectedItem>, existing: set<string>) {
    forall i :: 0 <= i < |items| && Eligible(items[i], existing) ==> items[i].read.Content?
  }

  /** When no read fails, the text is exactly the blocks of the files read
      joined by single blank lines: no blank line before the first block,
      one between each two, none after the last. */
  lemma BlankLinesOnlyBetweenBlocks(items: seq<SelectedItem>, existing: set<string>, nl: string)
    requires NoFailures(items, existing)
    ensures SelectionText(items, existing, nl) == Join(Blocks(items, existing, nl), nl)
  {
    JoinedFrom(items, existing, nl, false);
  }

  lemma {:induction false} JoinedFrom(
    items: seq<SelectedItem>, existing: set<string>, nl: string, copiedBefore: bool)
    requires NoFailures(items, existing)
    ensures var bs := Blocks(items, existing, nl);
      TextFrom(items, existing, nl, copiedBefore) ==
        (if copiedBefore && bs != [] then nl else "") + Join(bs, nl)
    decreases |items|
  {
    if items != [] {
      var x, rest := items[0], items[1..];
      NoFailuresTail(items, existing);
      var s' := copiedBefore || Succeeds(x, existing);
      JoinedFrom(rest, existing, nl, s');
      var r := Blocks(rest, existing, nl);
      var tail := TextFrom(rest, existing, nl, s');
      if Succeeds(x, existing) {
        var b := SuccessBlock(FileName(x.fullPath.value), x.read.text, nl);
        var sep := if copiedBefore then nl else "";
        assert Blocks(items, existing, nl) == [b] + r;
        assert TextFrom(items, existing, nl, copiedBefore) == (sep + b) + tail;
        JoinFront(b, r, nl, sep, tail);
      } else {
        assert !Eligible(x, existing);
        assert TextFrom(items, existing, nl, copiedBefore) == "" + tail;
      }
    }
  }

  lemma NoFailuresTail(items: seq<SelectedItem>, existing: set<string>)
    requires items != [] && NoFailures(items, existing)
    ensures NoFailures(items[1..], existing)
  {
    var rest := items[1..];
    forall i | 0 <= i < |rest| && Eligible(rest[i], existing)
      ensures rest[i].read.Content?
    {
      assert rest[i] == items[i + 1];
    }
  }

  /** Putting a block in front of joined blocks: the separator before the
      new block, then the block, then one terminator and the rest when there
      is a rest. */
  lemma JoinFront(b: string, r: seq<string>, nl: string, sep: string, tail: string)
    requires tail == (if r != [] then nl else "") + Join(r, nl)
    ensures (sep + b) + tail == sep + Join([b] + r, nl)
  {
    if r == [] {
      assert Join([b] + r, nl) == b;
      assert tail == "";
    } else {
      assert ([b] + r)[1..] == r;
      assert Join([b] + r, nl) == b + nl + Join(r, nl);
      AppendThree(sep, b, nl, Join(r, nl));
    }
  }

  // ----- The whole command ---------------------------------------------------

  /** The message box the command ends with; `NoOutput` is the silent
      return on an empty selection. */
  datatype SelectionOutcome =
    | NoOutput
    | Copied(filesCopied: nat, totalSize: nat)
    | ClipboardFailed(message: string)
    | NoValidSelection

  /** The text placed on the clipboard, if any, and the closing message. */
  datatype SelectionRun = SelectionRun(clipboard: Option<string>, outcome: SelectionOutcome)

  /** The command from the selection on. An empty selection returns with no
      text and no message. Otherwise the clipboard is set to the whole text
      exactly when at least one file was read and the clipboard accepts it,
      and the confirmation reports the number of files and their total
      length; when no file was read the "no valid C# script" notice is
      shown. */
  method CopySelection(
    items: seq<SelectedItem>, existing: set<string>, nl: string, clipboardError: Option<string>)
    returns (run: SelectionRun)
    ensures items == [] ==> run == SelectionRun(None, NoOutput)
    ensures run.outcome == NoOutput <==> items == []
    ensures run.outcome.Copied? <==> run.clipboard.Some?
    ensures CopiedCount(items, existing) > 0 && clipboardError.Some? ==>
      run == SelectionRun(None, ClipboardFailed(clipboardError.value))
    ensures run.clipboard.Some? <==> CopiedCount(items, existing) > 0 && clipboardError.None?
    ensures run.clipboard.Some? ==>
      && run.clipboard.value == SelectionText(items, existing, nl)
      && run.outcome == Copied(CopiedCount(items, existing), TotalSize(items, existing))
    ensures run.outcome == NoValidSelection <==> items != [] && CopiedCount(items, existing) == 0
  {
    if |items| == 0 {
      return SelectionRun(None, NoOutput);
    }
    var text, filesCopied, totalSize := Concatenate(items, existing, nl);
    if filesCopied > 0 {
      match clipboardError {
        case Some(msg) => run := SelectionRun(None, ClipboardFailed(msg));
        case None => run := SelectionRun(Some(text), Copied(filesCopied, totalSize));
      }
    } else {
      run := SelectionRun(None, NoValidSelection);
    }
  }
}

=== FILE: syntax.dfy ===
/** The part of a C# compilation unit the `var` conversion looks at: variable
    declarations nested anywhere in the tree, each with its type slot and the
    type the semantic model infers for that slot. The parser, the semantic
    model and `SyntaxFactory.ParseTypeName` are not modelled; their answers
    are data carried by the nodes. */
module Syntax {
  import opened Wrappers

  /** Whitespace and comments attached before and after a node. */
  datatype Trivia = Trivia(leading: string, trailing: string)

  /** A type syntax node. `id` stands for the node's identity in the tree
      (Roslyn compares nodes by reference); `simplifierTag` records whether
      the node carries `Simplifier.Annotation`. */
  datatype TypeNode = TypeNode(id: nat, text: string, trivia: Trivia, simplifierTag: bool)

  /** `TypeSyntax.IsVar`: the slot is the contextual keyword `var`. */
  predicate IsVar(t: TypeNode) {
    t.text == "var"
  }

  /** The kind of a type symbol: `Error`, the only kind the candidate
      filter tests, and the other kinds. */
  datatype TypeKind =
    | Class | Struct | Interface | Enum | Delegate | Array | Pointer
    | TypeParameter | Dynamic | Error

  /** The converted type the semantic model reports for a type slot.
      `display` is its default display string; `qualifiedSpelling` is its
      fully-qualified display string as parsed back into a type name,
      `None` when producing or parsing that spelling throws. */
  datatype TypeSymbol = TypeSymbol(
    kind: TypeKind,
    isAnonymous: bool,
    display: string,
    qualifiedSpelling: Option<string>)

  /** A `VariableDeclarationSyntax` with the semantic model's answer for its
      type slot: the converted type of its type information, `None` when
      there is none. */
  datatype VarDecl = VarDecl(typeSlot: TypeNode, convertedType: Option<TypeSymbol>)

  /** A syntax node: a variable declaration or any other node, each with its
      children in source order. */
  datatype Node =
    | Declaration(decl: VarDecl, children: seq<Node>)
    | Other(children: seq<Node>)

  /** The root of one source file. */
  datatype CompilationUnit = CompilationUnit(members: seq<Node>)

  /** The declarations at or below `n`, in pre-order. */
  function NodeDeclarations(n: Node): seq<VarDecl>
    decreases n
  {
    (if n.Declaration? then [n.decl] else []) + ForestDeclarations(n.children)
  }

  /** The declarations below a sequence of sibling nodes, in pre-order. */
  function ForestDeclarations(ns: seq<Node>): seq<VarDecl>
    decreases ns
  {
    if ns == [] then [] else NodeDeclarations(ns[0]) + ForestDeclarations(ns[1..])
  }

  /** The variable declarations among the descendant nodes of the root, in
      pre-order. */
  function Declarations(cu: CompilationUnit): seq<VarDecl> {
    ForestDeclarations(cu.members)
  }

  /** The `IsVar` filter over the declarations: those whose type slot is
      `var`, in their original order. */
  function VarOnly(ds: seq<VarDecl>): (r: seq<VarDecl>)
    ensures |r| <= |ds|
    ensures forall d :: d in r <==> d in ds && IsVar(d.typeSlot)
  {
    if ds == [] then []
    else VarOnly(ds[..|ds| - 1]) + (if IsVar(ds[|ds| - 1].typeSlot) then [ds[|ds| - 1]] else [])
  }

  /** Filtering distributes over concatenation, so the candidates keep the
      relative order the declarations have in the tree. */
  lemma {:induction false} VarOnlyAppend(a: seq<VarDecl>, b: seq<VarDecl>)
    ensures VarOnly(a + b) == VarOnly(a) + VarOnly(b)
    decreases |b|
  {
    if b == [] {
      assert a + b == a;
    } else {
      var b' := b[..|b| - 1];
      assert (a + b)[..|a + b| - 1] == a + b';
      assert (a + b)[|a + b| - 1] == b[|b| - 1];
      VarOnlyAppend(a, b');
    }
  }

  /** The scanner's output: the `var` declarations of the file in tree order. */
  function Candidates(cu: CompilationUnit): seq<VarDecl> {
    VarOnly(Declarations(cu))
  }

  /** No two declarations of the sequence share a type-slot node. */
  predicate DistinctIds(ds: seq<VarDecl>) {
    forall i, j :: 0 <= i < j < |ds| ==> ds[i].typeSlot.id != ds[j].typeSlot.id
  }

  /** No two declarations of the file share a type-slot node. */
  predicate UniqueIds(cu: CompilationUnit) {
    DistinctIds(Declarations(cu))
  }

  /** The declaration after `ReplaceNodes`: its type slot swapped for the
      planned replacement when the plan has one for that node. */
  function ReplaceSlot(d: VarDecl, plan: map<nat, TypeNode>): VarDecl {
    if d.typeSlot.id in plan then d.(typeSlot := plan[d.typeSlot.id]) else d
  }

  function ReplaceSlots(ds: seq<VarDecl>, plan: map<nat, TypeNode>): (r: seq<VarDecl>)
    ensures |r| == |ds|
    ensures forall i :: 0 <= i < |ds| ==> r[i] == ReplaceSlot(ds[i], plan)
  {
    if ds == [] then [] else [ReplaceSlot(ds[0], plan)] + ReplaceSlots(ds[1..], plan)
  }

  /** `SyntaxNode.ReplaceNodes` over the subtree `n`. */
  function RewriteNode(n: Node, plan: map<nat, TypeNode>): Node
    decreases n
  {
    match n
    case Declaration(d, ch) => Declaration(ReplaceSlot(d, plan), RewriteForest(ch, plan))
    case Other(ch) => Other(RewriteForest(ch, plan))
  }

  function RewriteForest(ns: seq<Node>, plan: map<nat, TypeNode>): seq<Node>
    decreases ns
  {
    if ns == [] then [] else [RewriteNode(ns[0], plan)] + RewriteForest(ns[1..], plan)
  }

  /** `ReplaceNodes` with the plan's keys, each replaced by its planned node:
      one structural pass that replaces every planned type slot at once. */
  function Rewrite(cu: CompilationUnit, plan: map<nat, TypeNode>): CompilationUnit {
    CompilationUnit(RewriteForest(cu.members, plan))
  }

  lemma {:induction false} ReplaceSlotsAppend(a: seq<VarDecl>, b: seq<VarDecl>, plan: map<nat, TypeNode>)
    ensures ReplaceSlots(a + b, plan) == ReplaceSlots(a, plan) + ReplaceSlots(b, plan)
  {
  }

  lemma {:induction false} RewriteNodeDeclarations(n: Node, plan: map<nat, TypeNode>)
    ensures NodeDeclarations(RewriteNode(n, plan)) == ReplaceSlots(NodeDeclarations(n), plan)
    decreases n
  {
    var own := if n.Declaration? then [n.decl] else [];
    RewriteForestDeclarations(n.children, plan);
    ReplaceSlotsAppend(own, ForestDeclarations(n.children), plan);
  }

  lemma {:induction false} RewriteForestDeclarations(ns: seq<Node>, plan: map<nat, TypeNode>)
    ensures ForestDeclarations(RewriteForest(ns, plan)) == ReplaceSlots(ForestDeclarations(ns), plan)
    decreases ns
  {
    if ns != [] {
      RewriteNodeDeclarations(ns[0], plan);
      RewriteForestDeclarations(ns[1..], plan);
      ReplaceSlotsAppend(NodeDeclarations(ns[0]), ForestDeclarations(ns[1..]), plan);
      assert RewriteForest(ns, plan)[0] == RewriteNode(ns[0], plan);
      assert RewriteForest(ns, plan)[1..] == RewriteForest(ns[1..], plan);
    }
  }

  /** The rewrite keeps the tree's shape: the rewritten file has its
      declarations in the same order, each with its type slot replaced
      exactly when the plan has an entry for that slot's node. */
  lemma RewriteDeclarations(cu: CompilationUnit, plan: map<nat, TypeNode>)
    ensures |Declarations(Rewrite(cu, plan))| == |Declarations(cu)|
    ensures forall i :: 0 <= i < |Declarations(cu)| ==>
      Declarations(Rewrite(cu, plan))[i] == ReplaceSlot(Declarations(cu)[i], plan)
  {
    RewriteForestDeclarations(cu.members, plan);
  }
}

=== FILE: wrappers.dfy ===
/** Failure-carrying wrappers shared by the other modules: `Option` for values a
    host call may not deliver (a null reference, a missing property), `Result`
    for steps that either produce a value or end with an error. */
module Wrappers {

  datatype Option<+T> = None | Some(value: T)

  datatype Result<+R, +E> = Success(value: R) | Failure(error: E)
}
